=== FILE: README.md ===
# Synapse backend: request handling, modelled in Dafny

This project models the request-handling decisions of the Synapse social-network
backend: the `/posts` routes (feed, create post, toggle like, comment), the
`/users` routes (`/me`, public profile, toggle follow) and the `authenticateToken`
bearer-token middleware. The relational store behind the ORM is replaced by a
plain value, `Store.Db`:

- users, in insertion order, looked up by email and by id (first match);
- posts, each with an author id and a `createdAt` instant;
- a set of `(postId, userId)` like keys;
- a set of ordered `(followerId, followingId)` follow keys;
- comments.

Each handler is a pure function from the claims (or nothing, for the public
profile), the path and body parameters and the store to an `Http.Outcome`: a
status, a response body and the store as the handler leaves it. The token
middleware is `Auth.Authenticate`. It takes the raw `Authorization` header and a
verifier function standing for `jwt.verify`, and decides 401, 403 or "run the
handler with these claims". The routers `Posts.PostsRoute` and `Users.UsersRoute`
put the middleware in front of the handlers, as the route files do.

Modules, one per concern:

- `Optional`: the `Option` type.
- `Store`: entities, `Db`, lookups, counts, and `Valid`: unique ids and resolved foreign keys, which the database enforces, plus follow edges that never join a user to themselves, which the follow handler maintains.
- `Ordering`: the newest-first order and the five-post profile cut.
- `Http`: statuses, JSON body values with JavaScript truthiness, response bodies, `Outcome`.
- `Header`: `split(" ")` and the token taken from the second piece.
- `Auth`: claims, the middleware decision, the actor lookup.
- `Posts`: the `/posts` routes.
- `Users`: the `/users` routes.
- `Scenario`: one worked request sequence.

Some behaviour depends on the ORM and the database schema. Neither is part of
this model. The model takes it as follows:

- A `findUnique` whose claims carry no `email` is a validation error, so 500.
- In the feed's like filter, an absent email is an empty condition: every like
  matches. So for such a requester `isLiked` is "the post has any like", not
  "the requester liked it".
- Creating a like or a comment on a post that does not exist violates a foreign
  key. So does creating a follow edge to a user who does not exist. Each is a 500.
- A generated id that clashes with an existing one breaks the unique constraint: 500.
- Post and comment `content` must be a string. A truthy non-string body value
  passes the handler's check, but the store refuses it: 500.
- The comment handler does not check `content` at all. An empty string creates a
  comment. An absent value reaches the store and is refused there: 500.

`createPost` tests JavaScript truthiness, so any falsy `content` is refused with
400: absent, `null`, `false`, `0` or `""`.

## Model

| member | source | states |
|---|---|---|
| Store.FindByEmail | apps/backend/src/routes/posts.js:44-46 | the record found carries the email and is in the store; none found means no record has that email |
| Store.FindById | apps/backend/src/routes/users.js:31-32 | the record found carries the id and is in the store; none found means no record has that id |
| Store.FindByEmailUnique | apps/backend/src/routes/users.js:12-14 | with unique emails, the lookup by email finds the one record holding it |
| Ordering.Insert | apps/backend/src/routes/posts.js:9-10 | inserting into a newest-first list keeps it newest first and adds exactly that post |
| Ordering.SortNewestFirst | apps/backend/src/routes/posts.js:9-10 | the result is a permutation of the posts, ordered by `createdAt` descending |
| Ordering.PostsBy | apps/backend/src/routes/users.js:33-34 | a post is kept iff it is in the store and the user wrote it; nothing is duplicated |
| Ordering.RecentPosts | apps/backend/src/routes/users.js:34-37 | at most 5 of the user's posts, newest first; any of the user's posts left out means 5 were kept, each at least as new as it |
| Header.Split | apps/backend/src/middleware/auth.js:6 | `split(" ")` never returns an empty list and no piece holds a space |
| Header.JoinSplit | apps/backend/src/middleware/auth.js:6 | joining the pieces with single spaces gives the header back |
| Header.SplitJoin | apps/backend/src/middleware/auth.js:6 | splitting a join of space-free pieces gives back the pieces |
| Header.TokenIsSecondPiece | apps/backend/src/middleware/auth.js:6-8 | a token is taken iff it is non-empty, space-free, and sits right after the first space, followed by the end or a space |
| Header.NoTokenIffNoSecondPiece | apps/backend/src/middleware/auth.js:6-8 | no token is taken iff the header has no piece of that shape |
| Header.Token | apps/backend/src/middleware/auth.js:6 | an absent or empty header gives no token; a token taken is non-empty, holds no space, and comes from a header with a space in it |
| Header.TokenOfBearer | apps/backend/src/middleware/auth.js:6 | `"Bearer abc"` gives the token `"abc"` |
| Header.TokenIgnoresScheme | apps/backend/src/middleware/auth.js:6 | the scheme word is not checked and later pieces are ignored: `"Basic abc def"` gives `"abc"` |
| Header.NoTokenWithoutSpace | apps/backend/src/middleware/auth.js:6-8 | a header that is only `"Bearer"` gives no token |
| Header.NoTokenAfterDoubleSpace | apps/backend/src/middleware/auth.js:6-8 | a second space right after the scheme word leaves an empty second piece, so no token |
| Header.NoTokenAfterDoubleSpaceExample | apps/backend/src/middleware/auth.js:6-8 | `"Bearer  abc"` gives no token |
| Auth.Authenticate | apps/backend/src/middleware/auth.js:4-24 | 401 iff no token; 403 iff the verifier rejects the token; otherwise proceed with exactly the decoded claims |
| Auth.Guard | apps/backend/src/middleware/auth.js:8-24 | a rejection answers with its status and reason phrase and leaves the store alone; otherwise the response is exactly the handler's on the decoded claims |
| Auth.RejectSkipsHandler | apps/backend/src/middleware/auth.js:8-24 | a rejected request never reaches the handler: the response is the same whatever the handler is |
| Auth.NoTokenNoVerify | apps/backend/src/middleware/auth.js:8-16 | without a token the decision is 401 whatever the verifier would say |
| Auth.MissingHeaderIsUnauthorized | apps/backend/src/middleware/auth.js:5-8 | an absent or empty header, `"Bearer"`, or `"Bearer  abc"` is answered with 401 |
| Auth.Actor | apps/backend/src/routes/posts.js:44-46 | the acting record is in the store and has the claims' email; none means no email or no such record |
| Auth.ActorIsTheEmailOwner | apps/backend/src/routes/posts.js:68-70 | with unique emails, the acting record is the one that holds the claims' email |
| Posts.LikerMatches | apps/backend/src/routes/posts.js:18-21 | a like passing the feed's filter is by an existing user; with unique emails and an email in the claims, it passes iff it is by the user the email lookup finds |
| Posts.FeedEntry | apps/backend/src/routes/posts.js:11-29 | an entry keeps its post; it has an author iff a user has the post's author id, and then it is that user's `{ id, name, image }`; `likedBy` holds exactly the ids of the likes on it that pass the filter; `isLiked` iff that set is non-empty, i.e. iff such a like exists |
| Posts.GetFeed | apps/backend/src/routes/posts.js:7-31 | 200 with every post of the store, newest first, each flagged iff a like on it passes the requester's filter; in a valid store every entry carries its post's author; store unchanged |
| Posts.FeedMarksActorLikes | apps/backend/src/routes/posts.js:18-28 | for claims with an email, `isLiked` iff the store holds a like of that post by the user with that email |
| Posts.FeedIgnoresOthersLikes | apps/backend/src/routes/posts.js:18-28 | changing likes that do not pass the requester's filter leaves the feed's posts, order and flags unchanged |
| Posts.CreatePost | apps/backend/src/routes/posts.js:38-61 | falsy content is 400 "Content is required" with the store unchanged; every other failure (no actor, non-string content, clashing id) is 500 with the store unchanged; success needs an unused id and appends exactly one post with the actor as author |
| Posts.ToggleLike | apps/backend/src/routes/posts.js:65-94 | no actor is 500; a present like is removed ("Unliked"), an absent one added ("Liked"); only that key changes; posts, users, follows, comments untouched |
| Posts.ToggleLikeTwice | apps/backend/src/routes/posts.js:81-91 | two successful toggles restore the store; the messages are one "Liked" and one "Unliked" |
| Posts.CreateComment | apps/backend/src/routes/posts.js:98-120 | every failure (no actor, missing or non-string content, missing post, clashing id) is 500 with the store unchanged; success needs an existing post and an unused comment id, and appends exactly one comment carrying the path post id and the actor as author |
| Posts.CreatePostKeepsValid | apps/backend/src/routes/posts.js:48-56 | creating a post keeps ids unique and every foreign key resolved |
| Posts.ToggleLikeKeepsValid | apps/backend/src/routes/posts.js:81-91 | toggling a like keeps every like pointing at an existing post and user |
| Posts.CreateCommentKeepsValid | apps/backend/src/routes/posts.js:106-115 | commenting keeps comment ids unique and every foreign key resolved |
| Posts.PostsRoute | apps/backend/src/routes/posts.js:7-121 | every `/posts` route is behind the middleware: no token is 401 with the text "Unauthorized", a rejected one 403 with "Forbidden", the store untouched; a verified token runs the handler with its claims |
| Users.Me | apps/backend/src/routes/users.js:7-25 | no email is 500; no record with the email is 404 "User not found"; otherwise 200 with that record; store unchanged |
| Users.MeIsTheEmailOwner | apps/backend/src/routes/users.js:12-22 | with unique emails, `/me` answers with the one record holding the claims' email |
| Users.Profile | apps/backend/src/routes/users.js:29-48 | 404 "User not found" iff no record has the id; otherwise that record with at most 5 of its posts, none repeated, newest first, none left out newer than one kept; store unchanged |
| Users.ToggleFollow | apps/backend/src/routes/users.js:51-100 | guards in order (no email 500, no actor 404, self 400), store untouched by them; the edge actor to target is removed ("Unfollowed") or added ("Followed"); no other edge changes and no self edge appears |
| Users.MissingActorIgnoresFollows | apps/backend/src/routes/users.js:56-60 | a missing actor gets 404 "Current user not found" whatever follow edges exist |
| Users.SelfFollowNeverAddsEdge | apps/backend/src/routes/users.js:62-64 | following oneself is 400 and adds no edge |
| Users.ToggleFollowKeepsReverseEdge | apps/backend/src/routes/users.js:67-95 | the reverse edge, target to actor, is never touched |
| Users.ToggleFollowTwice | apps/backend/src/routes/users.js:76-95 | two successful toggles restore the store; the messages are one "Followed" and one "Unfollowed" |
| Users.ToggleFollowKeepsValid | apps/backend/src/routes/users.js:62-95 | toggling a follow keeps every edge between two existing, distinct users |
| Users.UsersRoute | apps/backend/src/routes/users.js:7-51 | GET "me" in any letter case is the guarded `/me` (paths match case-insensitively), any other GET is the public profile; `/me` and follow are 401/403 without a good token, store untouched |
| Users.ProfileNeedsNoToken | apps/backend/src/routes/users.js:29 | for a segment that is not "me" in any case, the profile answer does not depend on the header or the verifier |
| Users.Lower | apps/backend/src/routes/users.js:2 | the case-folded segment has the same length and each ASCII capital is replaced by its lower-case letter |
| Users.MeInAnyCase | apps/backend/src/routes/users.js:7 | a segment reaches `/me` iff it is "me", "mE", "Me" or "ME" |
| Users.UpperMeIsUnauthorized | apps/backend/src/routes/users.js:7 | GET /users/ME with no header is 401 "Unauthorized", store untouched |
| Scenario.PostLikeUnlike | apps/backend/src/routes/posts.js:38-91 | a user posts "hello", likes it ("Liked"), sees it liked with one like in the feed, and unlikes it ("Unliked", no likes left) |

## Left out

- Server wiring in `apps/backend/src/index.js`: CORS, security headers, request logging, JSON body parsing, the liveness route `GET /` and `listen`. Parts of it answer before any router runs: the JSON parser's 400 for a malformed body (even without an `Authorization` header), the CORS preflight answer to `OPTIONS`, and the liveness text for `GET /`. None of these is modelled; `PostsRoute` and `UsersRoute` describe requests that reach the routers.
- `jwt.verify` and the shared secret: the verifier is a function parameter returning optional claims.
- Logging the verification failure with `console.error`: it does not affect the response.
- Concurrency: each handler is one atomic step. The race between two identical toggle requests is not modelled.
- Store failures other than those listed above, such as a lost connection. They would end in the same 500 with the store unchanged.
- The text of 500 responses (`err.message`): the body is `ErrorText`.
- JSON serialisation of the bodies. The `_count` aggregates appear as cardinalities, but no property is proved about them beyond the worked scenario.
- The order of posts with equal `createdAt`: the database leaves it open. The model's sort fixes one order, and the contracts state only the permutation and newest-first order.
- Id generation and the clock: `CreatePost` and `CreateComment` take the generated id and the current time as parameters.
- JSON numbers are integers here: fractions and `NaN` in a `content` field are not modelled.

=== FILE: auth.dfy ===
/**
 The `authenticateToken` middleware: a missing token is answered with 401
 before the verifier is asked anything, a token the verifier rejects with 403,
 and otherwise the route's handler runs with exactly the decoded claims.
 */
module Auth {
  import opened Optional
  import opened Store
  import opened Header
  import opened Http

  /** The decoded token payload. The handlers read only `email`; either claim may be absent. */
  datatype Claims = Claims(email: Option<Email>, sub: Option<Id>)

  /** `jwt.verify` with the shared secret: the decoded claims, or `None` where it throws. */
  type Verifier = string -> Option<Claims>

  datatype Decision = Reject(status: int) | Proceed(user: Claims)

  function Authenticate(header: Option<string>, verify: Verifier): (d: Decision)
    ensures d == Reject(Unauthorized) <==> Token(header).None?
    ensures d == Reject(Forbidden) <==> Token(header).Some? && verify(Token(header).value).None?
    ensures d.Proceed? <==> Token(header).Some? && verify(Token(header).value).Some?
    ensures d.Proceed? ==> d.user == verify(Token(header).value).value
  {
    match Token(header)
    case None => Reject(Unauthorized)
    case Some(t) =>
      match verify(t)
      case None => Reject(Forbidden)
      case Some(claims) => Proceed(claims)
  }

  /**
   The middleware in front of a handler: a rejection answers with the status
   and its reason phrase and leaves the store alone; otherwise `next` runs the
   handler on exactly the decoded claims.
   */
  function Guard(d: Decision, db: Db, handler: Claims -> Outcome): (o: Outcome)
    ensures d.Reject? ==> o.status == d.status && o.body == StatusText(ReasonPhrase(d.status)) && o.db == db
    ensures d.Proceed? ==> o == handler(d.user)
  {
    match d
    case Reject(status) => Outcome(status, StatusText(ReasonPhrase(status)), db)
    case Proceed(claims) => handler(claims)
  }

  /** A rejected request never reaches the handler: any two handlers give the same response. */
  lemma RejectSkipsHandler(d: Decision, db: Db, h1: Claims -> Outcome, h2: Claims -> Outcome)
    requires d.Reject?
    ensures Guard(d, db, h1) == Guard(d, db, h2)
  {
  }

  /** Without a token the verifier is never consulted: any two verifiers give the same decision. */
  lemma NoTokenNoVerify(header: Option<string>, v1: Verifier, v2: Verifier)
    requires Token(header).None?
    ensures Authenticate(header, v1) == Authenticate(header, v2) == Reject(Unauthorized)
  {
  }

  /** An absent header, an empty one, or one that is only a scheme word, is answered with 401. */
  lemma MissingHeaderIsUnauthorized(verify: Verifier)
    ensures Authenticate(None, verify) == Reject(Unauthorized)
    ensures Authenticate(Some(""), verify) == Reject(Unauthorized)
    ensures Authenticate(Some("Bearer"), verify) == Reject(Unauthorized)
    ensures Authenticate(Some("Bearer  abc"), verify) == Reject(Unauthorized)
  {
    NoTokenWithoutSpace();
    NoTokenAfterDoubleSpaceExample();
  }

  /** The user record a handler acts as: the one whose email is the claims' email. */
  function Actor(db: Db, c: Claims): (r: Option<User>)
    ensures r.Some? ==> r.value in db.users && c.email == Some(r.value.email)
    ensures r.None? ==> forall u :: u in db.users ==> c.email != Some(u.email)
  {
    match c.email
    case None => None
    case Some(e) => FindByEmail(db.users, e)
  }

  /** With unique emails, the actor is the one record carrying the claims' email. */
  lemma ActorIsTheEmailOwner(db: Db, c: Claims, u: User)
    requires UniqueUsers(db.users)
    requires u in db.users && c.email == Some(u.email)
    ensures Actor(db, c) == Some(u)
  {
    FindByEmailUnique(db.users, u.email, u);
  }

}

=== FILE: header.dfy ===
/**
 Reading the bearer token out of the `Authorization` header: the header is
 cut at every single space, as JavaScript's `split(" ")` does, and the second
 piece is the token, whatever the first piece (the scheme word) says.
 */
module Header {
  import opened Optional

  /** The position of the first space in `s`. */
  function FirstSpace(s: string): (i: nat)
    requires ' ' in s
    ensures i < |s| && s[i] == ' ' && ' ' !in s[..i]
    ensures forall k :: 0 <= k < i ==> s[k] != ' '
  {
    if s[0] == ' ' then 0
    else
      assert s == [s[0]] + s[1..];
      var j := FirstSpace(s[1..]);
      assert s[..j + 1] == [s[0]] + s[1..][..j];
      j + 1
  }

  /** Glues pieces back together with one space between neighbours. */
  function Join(parts: seq<string>): string
    requires |parts| >= 1
  {
    if |parts| == 1 then parts[0] else parts[0] + " " + Join(parts[1..])
  }

  /** JavaScript's `s.split(" ")`: never empty, and no piece holds a space. */
  function Split(s: string): (r: seq<string>)
    ensures |r| >= 1
    ensures forall k :: 0 <= k < |r| ==> ' ' !in r[k]
    decreases |s|
  {
    if ' ' !in s then [s]
    else
      var i := FirstSpace(s);
      [s[..i]] + Split(s[i + 1..])
  }

  lemma JoinCons(a: string, rest: seq<string>)
    requires |rest| >= 1
    ensures Join([a] + rest) == a + " " + Join(rest)
  {
    assert ([a] + rest)[1..] == rest;
  }

  /** Joining the pieces gives the header back. */
  lemma {:induction false} JoinSplit(s: string)
    ensures Join(Split(s)) == s
    decreases |s|
  {
    if ' ' in s {
      var i := FirstSpace(s);
      var w, x := s[..i], s[i + 1..];
      var rest := Split(x);
      assert Split(s) == [w] + rest;
      JoinSplit(x);
      JoinCons(w, rest);
      assert s == w + " " + x;
    }
  }

  /** The first space of `w + " " + x`, when `w` has none, is the one after `w`. */
  lemma SplitAt(w: string, x: string)
    requires ' ' !in w
    ensures Split(w + " " + x) == [w] + Split(x)
  {
    var s := w + " " + x;
    var i := FirstSpace(s);
    assert forall k :: 0 <= k < |w| ==> s[k] == w[k];
    assert s[|w|] == ' ';
    assert s[..i] == w && s[i + 1..] == x;
  }

  /** Splitting undoes joining, for pieces that hold no space. */
  lemma {:induction false} SplitJoin(parts: seq<string>)
    requires |parts| >= 1
    requires forall k :: 0 <= k < |parts| ==> ' ' !in parts[k]
    ensures Split(Join(parts)) == parts
  {
    if |parts| > 1 {
      SplitAt(parts[0], Join(parts[1..]));
      SplitJoin(parts[1..]);
      assert parts == [parts[0]] + parts[1..];
    }
  }

  /** The first piece of `x` is what comes before its first space, or all of `x`. */
  lemma SplitHead(x: string)
    ensures |Split(x)[0]| <= |x|
    ensures x[..|Split(x)[0]|] == Split(x)[0]
    ensures |Split(x)[0]| == |x| || x[|Split(x)[0]|] == ' '
  {
    if ' ' in x {
      var i := FirstSpace(x);
      assert Split(x)[0] == x[..i];
    }
  }

  /**
   `authHeader && authHeader.split(" ")[1]`, taken as a value the 401 check
   accepts: an absent or empty header, a header without a second piece, and
   an empty second piece all give no token.
   */
  function Token(header: Option<string>): (r: Option<string>)
    ensures header.None? || header == Some("") ==> r.None?
    ensures r.Some? ==> header.Some? && ' ' in header.value
    ensures r.Some? ==> r.value != "" && ' ' !in r.value
  {
    match header
    case None => None
    case Some(h) =>
      if h == "" then None
      else
        var parts := Split(h);
        if |parts| < 2 || parts[1] == "" then None else Some(parts[1])
  }

  /**
   The token, described without splitting: `t` is non-empty, holds no space,
   and sits right after the header's first space, followed by the end of the
   header or by another space.
   */
  ghost predicate IsToken(h: string, t: string) {
    exists w: string, rest: string {:trigger w + " " + t + rest} ::
      && h == w + " " + t + rest
      && ' ' !in w && ' ' !in t && t != ""
      && (rest == "" || rest[0] == ' ')
  }

  /** A piece followed by the end or by a space is the first piece. */
  lemma HeadPiece(t: string, rest: string)
    requires ' ' !in t
    requires rest == "" || rest[0] == ' '
    ensures Split(t + rest)[0] == t
  {
    if rest == "" {
      assert t + rest == t;
    } else {
      assert t + rest == t + " " + rest[1..];
      SplitAt(t, rest[1..]);
    }
  }

  /** A non-empty second piece is the token. */
  lemma TokenFromPieces(h: string)
    requires |Split(h)| >= 2 && Split(h)[1] != ""
    ensures Token(Some(h)) == Some(Split(h)[1])
  {
  }

  lemma TokenOfShape(w: string, t: string, rest: string)
    requires ' ' !in w && ' ' !in t && t != ""
    requires rest == "" || rest[0] == ' '
    ensures Token(Some(w + " " + t + rest)) == Some(t)
  {
    var x := t + rest;
    var h := w + " " + t + rest;
    assert h == w + " " + x;
    SplitAt(w, x);
    HeadPiece(t, rest);
    TokenFromPieces(h);
  }

  lemma ShapeWitness(h: string, w: string, x: string, t: string, rest: string)
    requires h == w + " " + x && x == t + rest
    requires ' ' !in w && ' ' !in t && t != ""
    requires rest == "" || rest[0] == ' '
    ensures IsToken(h, t)
  {
    assert h == w + " " + t + rest;
  }

  /** What `Token` returning a value says about the pieces of the header. */
  lemma TokenPieces(h: string, t: string)
    requires Token(Some(h)) == Some(t)
    ensures |Split(h)| >= 2 && Split(h)[1] == t && t != ""
    ensures ' ' in h
  {
  }

  /** A prefix `t` of `x` that is followed by nothing or by a space splits `x` into `t` and the rest. */
  lemma HeadThenRest(x: string, t: string)
    requires |t| <= |x| && x[..|t|] == t
    requires |t| == |x| || x[|t|] == ' '
    ensures x == t + x[|t|..]
    ensures x[|t|..] == "" || x[|t|..][0] == ' '
  {
    assert x == x[..|t|] + x[|t|..];
  }

  /** The second piece of a header is the first piece of what follows its first space. */
  lemma SecondPieceAfterSpace(h: string)
    requires ' ' in h
    requires |Split(h)| >= 2
    ensures var i := FirstSpace(h);
            h == h[..i] + " " + h[i + 1..] && ' ' !in h[..i] && Split(h[i + 1..])[0] == Split(h)[1]
  {
    var i := FirstSpace(h);
    var w, x := h[..i], h[i + 1..];
    assert h == w + " " + x;
    SplitAt(w, x);
  }

  /** A non-empty second piece has the shape `IsToken` describes. */
  lemma SecondPieceHasShape(h: string, t: string)
    requires ' ' in h
    requires |Split(h)| >= 2 && Split(h)[1] == t && t != ""
    ensures IsToken(h, t)
  {
    SecondPieceAfterSpace(h);
    var i := FirstSpace(h);
    var w, x := h[..i], h[i + 1..];
    SplitHead(x);
    HeadThenRest(x, t);
    ShapeWitness(h, w, x, t, x[|t|..]);
  }

  /** Whatever `Token` extracts has the shape `IsToken` describes. */
  lemma TokenHasShape(h: string, t: string)
    requires Token(Some(h)) == Some(t)
    ensures IsToken(h, t)
  {
    TokenPieces(h, t);
    SecondPieceHasShape(h, t);
  }

  /** The token `Token` extracts is exactly the one `IsToken` describes. */
  lemma TokenIsSecondPiece(h: string, t: string)
    ensures Token(Some(h)) == Some(t) <==> IsToken(h, t)
  {
    if IsToken(h, t) {
      var w: string, rest: string :| h == w + " " + t + rest && ' ' !in w && ' ' !in t && t != ""
        && (rest == "" || rest[0] == ' ');
      TokenOfShape(w, t, rest);
    }
    if Token(Some(h)) == Some(t) {
      TokenHasShape(h, t);
    }
  }

  /** A missing token is a header that has no piece `IsToken` accepts. */
  lemma NoTokenIffNoSecondPiece(h: string)
    ensures Token(Some(h)).None? <==> forall t :: !IsToken(h, t)
  {
    if Token(Some(h)).Some? {
      TokenIsSecondPiece(h, Token(Some(h)).value);
    } else {
      forall t ensures !IsToken(h, t) {
        TokenIsSecondPiece(h, t);
      }
    }
  }

  /** The piece after the first space is the token. */
  lemma TokenOfBearer()
    ensures Token(Some("Bearer abc")) == Some("abc")
  {
    assert "Bearer abc" == "Bearer" + " " + "abc" + "";
    TokenOfShape("Bearer", "abc", "");
  }

  /** The scheme word is not checked, and pieces after the second are ignored. */
  lemma TokenIgnoresScheme()
    ensures Token(Some("Basic abc def")) == Some("abc")
  {
    assert "Basic abc def" == "Basic" + " " + "abc" + " def";
    TokenOfShape("Basic", "abc", " def");
  }

  /** A header that is only a scheme word has no token. */
  lemma NoTokenWithoutSpace()
    ensures Token(Some("Bearer")) == None
  {
    assert ' ' !in "Bearer";
  }

  /** A doubled space after the scheme word leaves an empty second piece, so there is no token. */
  lemma NoTokenAfterDoubleSpace(w: string, x: string)
    requires ' ' !in w
    ensures Token(Some(w + " " + (" " + x))) == None
  {
    SplitAt(w, " " + x);
    SplitLeadingSpace(x);
    EmptySecondPiece(w + " " + (" " + x));
  }

  /** A leading space makes an empty first piece. */
  lemma SplitLeadingSpace(x: string)
    ensures Split(" " + x) == [""] + Split(x)
  {
    var s := " " + x;
    assert s[0] == ' ';
    assert s[..0] == "" && s[1..] == x;
  }

  /** An empty second piece is no token. */
  lemma EmptySecondPiece(h: string)
    requires |Split(h)| >= 2 && Split(h)[1] == ""
    ensures Token(Some(h)) == None
  {
  }

  lemma NoTokenAfterDoubleSpaceExample()
    ensures Token(Some("Bearer  abc")) == None
  {
    assert "Bearer  abc" == "Bearer" + " " + (" " + "abc");
    NoTokenAfterDoubleSpace("Bearer", "abc");
  }

}

=== FILE: http.dfy ===
/**
 What a handler sends back, and the request-body values it inspects. A handler
 is modelled as a function to an `Outcome`: the status, the response body, and
 the store as the handler leaves it.
 */
module Http {
  import opened Optional
  import opened Store

  const Ok := 200
  const BadRequest := 400
  const Unauthorized := 401
  const Forbidden := 403
  const NotFound := 404
  const InternalError := 500

  /**
   A value of the parsed JSON body. Numbers are integers here; the contents of
   arrays and objects matter to no handler, only that they are truthy.
   */
  datatype Json = JNull | JBool(b: bool) | JNum(n: int) | JStr(s: string) | JArray | JObject

  /** JavaScript truthiness of a body field that may be `undefined`. */
  predicate Truthy(v: Option<Json>) {
    match v
    case None => false
    case Some(JNull) => false
    case Some(JBool(b)) => b
    case Some(JNum(n)) => n != 0
    case Some(JStr(s)) => s != ""
    case Some(JArray) => true
    case Some(JObject) => true
  }

  /** The author fields the handlers select: `{ id, name, image }`. */
  datatype Author = Author(id: Id, name: string, image: string)

  function AuthorView(u: User): Author {
    Author(u.id, u.name, u.image)
  }

  /** One feed entry: the post, its author, the `_count`s, the requester's matching likes and `isLiked`. */
  datatype FeedItem = FeedItem(
    post: Post,
    author: Option<Author>,
    likeCount: nat,
    commentCount: nat,
    likedBy: set<Id>,
    isLiked: bool)

  datatype PostView = PostView(post: Post, author: Author)

  datatype CommentView = CommentView(comment: Comment, author: Author)

  /** `/users/me`: the record with its post, follower and following counts. */
  datatype MeView = MeView(user: User, postCount: nat, followerCount: nat, followingCount: nat)

  /** `/users/:id`: the record, its recent posts and its follower and following counts. */
  datatype ProfileView = ProfileView(user: User, recent: seq<Post>, followerCount: nat, followingCount: nat)

  datatype Body =
    | StatusText(text: string)       // `sendStatus`: the status's reason phrase as plain text
    | Message(text: string)          // `{ message }`
    | ErrorText                      // `{ error: err.message }`; the text is not modelled
    | Feed(items: seq<FeedItem>)
    | CreatedPost(postView: PostView)
    | CreatedComment(commentView: CommentView)
    | CurrentUser(meView: MeView)
    | UserProfile(profileView: ProfileView)

  datatype Outcome = Outcome(status: int, body: Body, db: Db)

  /** The reason phrase Express sends as the body of `sendStatus`, for the statuses the middleware uses. */
  function ReasonPhrase(status: int): string {
    if status == Unauthorized then "Unauthorized"
    else if status == Forbidden then "Forbidden"
    else ""
  }

  /** The catch-all `500`: the store is left as it was. */
  function Failed(db: Db): Outcome {
    Outcome(InternalError, ErrorText, db)
  }

}

=== FILE: optional.dfy ===
/** A value that may be missing: JavaScript's `undefined`, or a lookup that found no record. */
module Optional {

  datatype Option<+T> = None | Some(value: T)

}

=== FILE: ordering.dfy ===
/**
 The `orderBy: { createdAt: "desc" }` and `take: 5` clauses of the queries.
 The database leaves the relative order of posts with equal `createdAt`
 unspecified; the sort below fixes one, and the contracts promise only what
 the query promises: the same posts, newest first.
 */
module Ordering {
  import opened Store

  ghost predicate NewestFirst(ps: seq<Post>) {
    forall i, j :: 0 <= i < j < |ps| ==> ps[i].createdAt >= ps[j].createdAt
  }

  /** Prepending a post no older than the head of a newest-first list keeps it newest first. */
  lemma PrependNewest(p: Post, ps: seq<Post>)
    requires NewestFirst(ps)
    requires |ps| > 0 ==> ps[0].createdAt <= p.createdAt
    ensures NewestFirst([p] + ps)
  {
    forall i, j | 0 <= i < j < |[p] + ps|
      ensures ([p] + ps)[i].createdAt >= ([p] + ps)[j].createdAt
    {
      if i == 0 && j > 1 {
        assert ps[0].createdAt >= ps[j - 1].createdAt;
      }
    }
  }

  function Insert(p: Post, ps: seq<Post>): (r: seq<Post>)
    requires NewestFirst(ps)
    ensures NewestFirst(r)
    ensures multiset(r) == multiset(ps) + multiset{p}
    ensures |r| > 0 && (r[0] == p || (|ps| > 0 && r[0] == ps[0]))
  {
    if |ps| == 0 then [p]
    else if ps[0].createdAt <= p.createdAt then
      PrependNewest(p, ps);
      [p] + ps
    else
      var rest := Insert(p, ps[1..]);
      assert ps == [ps[0]] + ps[1..];
      assert |ps[1..]| > 0 ==> ps[0].createdAt >= ps[1..][0].createdAt;
      PrependNewest(ps[0], rest);
      [ps[0]] + rest
  }

  function SortNewestFirst(ps: seq<Post>): (r: seq<Post>)
    ensures NewestFirst(r)
    ensures multiset(r) == multiset(ps)
  {
    if |ps| == 0 then []
    else
      assert ps == [ps[0]] + ps[1..];
      Insert(ps[0], SortNewestFirst(ps[1..]))
  }

  /** The posts of one author, in store order. */
  function PostsBy(posts: seq<Post>, authorId: Id): (r: seq<Post>)
    ensures forall p :: p in r <==> p in posts && p.authorId == authorId
    ensures multiset(r) <= multiset(posts)
  {
    if |posts| == 0 then []
    else
      assert posts == [posts[0]] + posts[1..];
      if posts[0].authorId == authorId then [posts[0]] + PostsBy(posts[1..], authorId)
      else PostsBy(posts[1..], authorId)
  }

  const RecentLimit := 5

  /** A prefix of a newest-first list is newest first and no older than anything it cuts off. */
  lemma PrefixIsNewest(sorted: seq<Post>, n: nat)
    requires NewestFirst(sorted)
    requires n <= |sorted|
    ensures NewestFirst(sorted[..n])
    ensures forall q :: q in sorted && q !in sorted[..n] ==>
              forall i :: 0 <= i < n ==> sorted[i].createdAt >= q.createdAt
  {
    assert forall k :: 0 <= k < n ==> sorted[..n][k] == sorted[k];
    forall q | q in sorted && q !in sorted[..n]
      ensures forall i :: 0 <= i < n ==> sorted[i].createdAt >= q.createdAt
    {
      var k :| 0 <= k < |sorted| && sorted[k] == q;
      assert n <= k;
    }
  }

  /** The first `n` of one author's posts, in any order, are posts of that author in the store. */
  lemma CutIsMine(posts: seq<Post>, authorId: Id, sorted: seq<Post>, n: nat)
    requires multiset(sorted) == multiset(PostsBy(posts, authorId))
    requires n <= |sorted|
    ensures forall p :: p in sorted[..n] ==> p in posts && p.authorId == authorId
    ensures multiset(sorted[..n]) <= multiset(posts)
  {
    var mine := PostsBy(posts, authorId);
    assert sorted == sorted[..n] + sorted[n..];
    var cut := multiset(sorted[..n]);
    assert cut <= multiset(mine);
    assert multiset(mine) <= multiset(posts);
    forall p | p in sorted[..n]
      ensures p in posts && p.authorId == authorId
    {
      assert p in cut;
      assert p in multiset(mine);
    }
  }

  /** A post of the author missing from a cut that is shorter than the limit cannot exist. */
  lemma CutIsFull(posts: seq<Post>, authorId: Id, sorted: seq<Post>, n: nat, q: Post)
    requires multiset(sorted) == multiset(PostsBy(posts, authorId))
    requires n == if |sorted| <= RecentLimit then |sorted| else RecentLimit
    requires q in posts && q.authorId == authorId && q !in sorted[..n]
    ensures n == RecentLimit
    ensures q in sorted
  {
    var mine := PostsBy(posts, authorId);
    assert q in mine;
    assert q in multiset(sorted);
    assert sorted[..|sorted|] == sorted;
  }

  /** The facts `RecentPosts` promises, about the first `n` of one author's posts sorted newest first. */
  lemma RecentCut(posts: seq<Post>, authorId: Id, sorted: seq<Post>, n: nat)
    requires NewestFirst(sorted) && multiset(sorted) == multiset(PostsBy(posts, authorId))
    requires n == if |sorted| <= RecentLimit then |sorted| else RecentLimit
    ensures forall p :: p in sorted[..n] ==> p in posts && p.authorId == authorId
    ensures multiset(sorted[..n]) <= multiset(posts)
    ensures NewestFirst(sorted[..n])
    ensures forall q :: q in posts && q.authorId == authorId && q !in sorted[..n] ==>
              n == RecentLimit && forall i :: 0 <= i < n ==> sorted[..n][i].createdAt >= q.createdAt
  {
    CutIsMine(posts, authorId, sorted, n);
    PrefixIsNewest(sorted, n);
    forall q | q in posts && q.authorId == authorId && q !in sorted[..n]
      ensures n == RecentLimit && forall i :: 0 <= i < n ==> sorted[..n][i].createdAt >= q.createdAt
    {
      CutIsFull(posts, authorId, sorted, n, q);
    }
  }

  /**
   A user's profile posts: at most five of that user's posts, newest first,
   and no post of theirs left out is newer than one kept.
   */
  function RecentPosts(posts: seq<Post>, authorId: Id): (r: seq<Post>)
    ensures |r| <= RecentLimit
    ensures forall p :: p in r ==> p in posts && p.authorId == authorId
    ensures multiset(r) <= multiset(posts)
    ensures NewestFirst(r)
    ensures forall q :: q in posts && q.authorId == authorId && q !in r ==>
              |r| == RecentLimit && forall i :: 0 <= i < |r| ==> r[i].createdAt >= q.createdAt
  {
    var sorted := SortNewestFirst(PostsBy(posts, authorId));
    var n := if |sorted| <= RecentLimit then |sorted| else RecentLimit;
    RecentCut(posts, authorId, sorted, n);
    sorted[..n]
  }

}

=== FILE: posts.dfy ===
/**
 The `/posts` routes: the feed, creating a post, toggling a like and adding a
 comment. Every route runs behind the token middleware. A failed lookup or a
 store error ends in the catch-all 500 and leaves the store unchanged.
 */
module Posts {
  import opened Optional
  import opened Store
  import opened Ordering
  import opened Http
  import opened Auth
  import Header

  // ---------------------------------------------------------------- feed

  /**
   Whether a like by `userId` passes the feed's filter on the requester's
   email. With no email in the claims the filter is empty and every like of an
   existing user passes. With unique emails, an email filter passes exactly the
   likes of the one user the email lookup finds.
   */
  predicate LikerMatches(db: Db, userId: Id, email: Option<Email>)
    ensures LikerMatches(db, userId, email) ==> HasUser(db, userId)
    ensures email.Some? && UniqueUsers(db.users) ==>
              (LikerMatches(db, userId, email) <==>
                 FindByEmail(db.users, email.value).Some? && FindByEmail(db.users, email.value).value.id == userId)
  {
    match email
    case None => HasUser(db, userId)
    case Some(e) =>
      var b := exists u :: u in db.users && u.id == userId && u.email == e;
      assert UniqueUsers(db.users) && b ==> FindByEmail(db.users, e).Some? && FindByEmail(db.users, e).value.id == userId by {
        if UniqueUsers(db.users) && b {
          var u :| u in db.users && u.id == userId && u.email == e;
          FindByEmailUnique(db.users, e, u);
        }
      }
      b
  }

  function AuthorOf(db: Db, id: Id): Option<Author> {
    match FindById(db.users, id)
    case None => None
    case Some(u) => Some(AuthorView(u))
  }

  /** The user ids of the likes on `p` that pass the filter: non-empty exactly when such a like exists. */
  lemma LikedByNonEmpty(db: Db, email: Option<Email>, p: Post)
    ensures var likedBy := set l | l in db.likes && l.0 == p.id && LikerMatches(db, l.1, email) :: l.1;
            |likedBy| > 0 <==> exists l :: l in db.likes && l.0 == p.id && LikerMatches(db, l.1, email)
  {
    var likedBy := set l | l in db.likes && l.0 == p.id && LikerMatches(db, l.1, email) :: l.1;
    if l :| l in db.likes && l.0 == p.id && LikerMatches(db, l.1, email) {
      assert l.1 in likedBy;
    }
  }

  /**
   One feed entry: the post with its author and counts, the ids of all the likes
   the requester's filter selects, and `isLiked` set exactly when one exists.
   */
  function FeedEntry(db: Db, email: Option<Email>, p: Post): (it: FeedItem)
    ensures it.post == p
    ensures it.author.Some? <==> HasUser(db, p.authorId)
    ensures it.author.Some? ==>
              it.author.value.id == p.authorId
              && exists u :: u in db.users && u.id == p.authorId && it.author.value == AuthorView(u)
    ensures forall uid :: uid in it.likedBy <==> (p.id, uid) in db.likes && LikerMatches(db, uid, email)
    ensures it.isLiked <==> it.likedBy != {}
    ensures it.isLiked <==> exists l :: l in db.likes && l.0 == p.id && LikerMatches(db, l.1, email)
  {
    var likedBy := set l | l in db.likes && l.0 == p.id && LikerMatches(db, l.1, email) :: l.1;
    LikedByNonEmpty(db, email, p);
    forall uid | (p.id, uid) in db.likes && LikerMatches(db, uid, email)
      ensures uid in likedBy
    {
      var l := (p.id, uid);
      assert l.1 in likedBy;
    }
    FeedItem(p, AuthorOf(db, p.authorId), LikeCount(db, p.id), CommentCount(db, p.id), likedBy, |likedBy| > 0)
  }

  function FeedPosts(items: seq<FeedItem>): (ps: seq<Post>)
    ensures |ps| == |items|
    ensures forall i :: 0 <= i < |items| ==> ps[i] == items[i].post
  {
    seq(|items|, i requires 0 <= i < |items| => items[i].post)
  }

  /** In a valid store every entry built from a stored post names that post's author. */
  lemma FeedAuthors(db: Db, email: Option<Email>, ps: seq<Post>, items: seq<FeedItem>)
    requires multiset(ps) == multiset(db.posts)
    requires |items| == |ps| && forall i :: 0 <= i < |ps| ==> items[i] == FeedEntry(db, email, ps[i])
    ensures Valid(db) ==>
              forall it :: it in items ==> it.author.Some? && it.author.value.id == it.post.authorId
  {
    if Valid(db) {
      forall it | it in items
        ensures it.author.Some? && it.author.value.id == it.post.authorId
      {
        var i :| 0 <= i < |items| && items[i] == it;
        assert ps[i] in multiset(db.posts);
      }
    }
  }

  /** `GET /posts`: every post, newest first, each with its author and marked with whether the requester likes it. */
  function GetFeed(c: Claims, db: Db): (o: Outcome)
    ensures o.status == Ok && o.db == db && o.body.Feed?
    ensures multiset(FeedPosts(o.body.items)) == multiset(db.posts)
    ensures NewestFirst(FeedPosts(o.body.items))
    ensures forall it :: it in o.body.items ==>
              (it.isLiked <==> exists l :: l in db.likes && l.0 == it.post.id && LikerMatches(db, l.1, c.email))
    ensures Valid(db) ==>
              forall it :: it in o.body.items ==> it.author.Some? && it.author.value.id == it.post.authorId
  {
    var sorted := SortNewestFirst(db.posts);
    var items := seq(|sorted|, i requires 0 <= i < |sorted| => FeedEntry(db, c.email, sorted[i]));
    assert FeedPosts(items) == sorted;
    assert forall it :: it in items ==> it == FeedEntry(db, c.email, it.post);
    FeedAuthors(db, c.email, sorted, items);
    Outcome(Ok, Feed(items), db)
  }

  /**
   For a requester whose claims carry an email, `isLiked` is set exactly when
   the store holds a like of that post by the user with that email.
   */
  lemma FeedMarksActorLikes(c: Claims, db: Db)
    requires UniqueUsers(db.users)
    requires c.email.Some?
    ensures forall it :: it in GetFeed(c, db).body.items ==>
              (it.isLiked <==> Actor(db, c).Some? && (it.post.id, Actor(db, c).value.id) in db.likes)
  {
    forall it | it in GetFeed(c, db).body.items
      ensures it.isLiked <==> Actor(db, c).Some? && (it.post.id, Actor(db, c).value.id) in db.likes
    {
      if it.isLiked {
        var l :| l in db.likes && l.0 == it.post.id && LikerMatches(db, l.1, c.email);
        var u :| u in db.users && u.id == l.1 && u.email == c.email.value;
        ActorIsTheEmailOwner(db, c, u);
        assert l == (it.post.id, u.id);
      }
      if Actor(db, c).Some? && (it.post.id, Actor(db, c).value.id) in db.likes {
        var u := Actor(db, c).value;
        assert LikerMatches(db, u.id, c.email);
      }
    }
  }

  /**
   Likes by other users do not move the requester's flags: two stores that
   agree on every like passing the requester's filter give the same posts in
   the same order with the same `isLiked`.
   */
  lemma FeedIgnoresOthersLikes(c: Claims, db: Db, likes: set<(Id, Id)>)
    requires forall l: (Id, Id) :: LikerMatches(db, l.1, c.email) ==> (l in db.likes <==> l in likes)
    ensures var mine, theirs := GetFeed(c, db).body.items, GetFeed(c, db.(likes := likes)).body.items;
            |mine| == |theirs| &&
            forall i :: 0 <= i < |mine| ==> mine[i].post == theirs[i].post && mine[i].isLiked == theirs[i].isLiked
  {
    var db' := db.(likes := likes);
    assert forall uid :: LikerMatches(db, uid, c.email) == LikerMatches(db', uid, c.email);
    var sorted := SortNewestFirst(db.posts);
    assert forall p :: p in sorted ==> FeedEntry(db, c.email, p).isLiked == FeedEntry(db', c.email, p).isLiked;
  }

  // ---------------------------------------------------------------- create post

  /**
   `POST /posts`. Falsy content is refused before anything else; then the
   author is the record with the claims' email, and the new post gets the
   generated id and the current time.
   */
  function CreatePost(c: Claims, content: Option<Json>, db: Db, newId: Id, now: int): (o: Outcome)
    ensures !Truthy(content) ==> o == Outcome(BadRequest, Message("Content is required"), db)
    ensures Truthy(content) && Actor(db, c).None? ==> o == Failed(db)
    ensures o.status != Ok ==> o == Failed(db) || o == Outcome(BadRequest, Message("Content is required"), db)
    ensures Truthy(content) && o.status != Ok ==> o == Failed(db)
    ensures o.status == Ok ==> !HasPost(db, newId)
    ensures o.status == Ok ==>
              && Actor(db, c).Some? && content.Some? && content.value.JStr?
              && var p := Post(newId, content.value.s, Actor(db, c).value.id, now);
                 o.db == db.(posts := db.posts + [p])
                 && o.body == CreatedPost(PostView(p, AuthorView(Actor(db, c).value)))
    ensures Truthy(content) && Actor(db, c).Some? && content.value.JStr? && !HasPost(db, newId) ==> o.status == Ok
  {
    if !Truthy(content) then Outcome(BadRequest, Message("Content is required"), db)
    else
      match Actor(db, c)
      case None => Failed(db)      // `user.id` on a missing record, or a lookup without an email
      case Some(u) =>
        match content.value
        case JStr(s) =>
          if HasPost(db, newId) then Failed(db)
          else
            var p := Post(newId, s, u.id, now);
            Outcome(Ok, CreatedPost(PostView(p, AuthorView(u))), db.(posts := db.posts + [p]))
        case _ => Failed(db)      // the store refuses a non-string `content`
  }

  // ---------------------------------------------------------------- toggle like

  /**
   `POST /posts/:id/like`: a like by the actor on the post is removed if it is
   there and added if it is not; the message says which.
   */
  function ToggleLike(c: Claims, postId: Id, db: Db): (o: Outcome)
    ensures Actor(db, c).None? ==> o == Failed(db)
    ensures o.status != Ok ==> o.db == db
    ensures o.db.users == db.users && o.db.posts == db.posts
    ensures o.db.follows == db.follows && o.db.comments == db.comments
    ensures Actor(db, c).Some? && (postId, Actor(db, c).value.id) in db.likes ==>
              o == Outcome(Ok, Message("Unliked"), db.(likes := db.likes - {(postId, Actor(db, c).value.id)}))
    ensures Actor(db, c).Some? && (postId, Actor(db, c).value.id) !in db.likes && HasPost(db, postId) ==>
              o == Outcome(Ok, Message("Liked"), db.(likes := db.likes + {(postId, Actor(db, c).value.id)}))
    ensures Actor(db, c).Some? && (postId, Actor(db, c).value.id) !in db.likes && !HasPost(db, postId) ==>
              o == Failed(db)
    ensures forall l :: (l in o.db.likes) != (l in db.likes) ==>
              Actor(db, c).Some? && l == (postId, Actor(db, c).value.id)
  {
    match Actor(db, c)
    case None => Failed(db)
    case Some(u) =>
      var key := (postId, u.id);
      if key in db.likes then Outcome(Ok, Message("Unliked"), db.(likes := db.likes - {key}))
      else if !HasPost(db, postId) then Failed(db)   // the like's foreign key to the post
      else Outcome(Ok, Message("Liked"), db.(likes := db.likes + {key}))
  }

  /**
   Liking twice in a row restores the like set, and the two messages are one
   "Liked" and one "Unliked".
   */
  lemma ToggleLikeTwice(c: Claims, postId: Id, db: Db)
    requires Valid(db)
    requires ToggleLike(c, postId, db).status == Ok
    ensures var first := ToggleLike(c, postId, db);
            var second := ToggleLike(c, postId, first.db);
            && second.status == Ok
            && second.db == db
            && {first.body, second.body} == {Message("Liked"), Message("Unliked")}
  {
    var u := Actor(db, c).value;
    if (postId, u.id) in db.likes {
      assert HasPost(db, postId);
      assert db.likes - {(postId, u.id)} + {(postId, u.id)} == db.likes;
    } else {
      assert db.likes + {(postId, u.id)} - {(postId, u.id)} == db.likes;
    }
  }

  // ---------------------------------------------------------------- comment

  /**
   `POST /posts/:id/comment`: the content is not checked for emptiness; the
   store refuses a missing or non-string one, a post that does not exist, and
   a clashing id.
   */
  function CreateComment(c: Claims, postId: Id, content: Option<Json>, db: Db, newId: Id, now: int): (o: Outcome)
    ensures Actor(db, c).None? ==> o == Failed(db)
    ensures o.status != Ok ==> o == Failed(db)
    ensures o.status == Ok ==> HasPost(db, postId) && !HasComment(db, newId)
    ensures o.status == Ok ==>
              && Actor(db, c).Some? && content.Some? && content.value.JStr?
              && var cm := Comment(newId, content.value.s, postId, Actor(db, c).value.id, now);
                 o.db == db.(comments := db.comments + [cm])
                 && o.body == CreatedComment(CommentView(cm, AuthorView(Actor(db, c).value)))
    ensures (Actor(db, c).Some? && content.Some? && content.value.JStr? && HasPost(db, postId)
              && !HasComment(db, newId)) ==> o.status == Ok
  {
    match Actor(db, c)
    case None => Failed(db)
    case Some(u) =>
      match content
      case Some(JStr(s)) =>
        if !HasPost(db, postId) || HasComment(db, newId) then Failed(db)
        else
          var cm := Comment(newId, s, postId, u.id, now);
          Outcome(Ok, CreatedComment(CommentView(cm, AuthorView(u))), db.(comments := db.comments + [cm]))
      case _ => Failed(db)
  }

  // ---------------------------------------------------------------- integrity

  /** Creating a post keeps ids unique and every foreign key pointing at a record. */
  lemma CreatePostKeepsValid(c: Claims, content: Option<Json>, db: Db, newId: Id, now: int)
    requires Valid(db)
    ensures Valid(CreatePost(c, content, db, newId, now).db)
  {
    var o := CreatePost(c, content, db, newId, now);
    if o.status == Ok {
      var p := o.db.posts[|db.posts|];
      assert o.db.posts == db.posts + [p];
      assert forall q :: q in db.posts ==> q.id != newId;
      assert HasUser(o.db, p.authorId) by {
        assert Actor(db, c).value in o.db.users;
      }
      assert forall id :: HasPost(db, id) ==> HasPost(o.db, id) by {
        forall id | HasPost(db, id) ensures HasPost(o.db, id) {
          var q :| q in db.posts && q.id == id;
          assert q in o.db.posts;
        }
      }
    }
  }

  /** Toggling a like only ever adds a like on an existing post by an existing user. */
  lemma ToggleLikeKeepsValid(c: Claims, postId: Id, db: Db)
    requires Valid(db)
    ensures Valid(ToggleLike(c, postId, db).db)
  {
    var o := ToggleLike(c, postId, db);
    if o.db.likes != db.likes && (postId, Actor(db, c).value.id) in o.db.likes {
      assert HasUser(db, Actor(db, c).value.id);
    }
  }

  /** Commenting only ever adds a comment on an existing post by an existing user, with a fresh id. */
  lemma CreateCommentKeepsValid(c: Claims, postId: Id, content: Option<Json>, db: Db, newId: Id, now: int)
    requires Valid(db)
    ensures Valid(CreateComment(c, postId, content, db, newId, now).db)
  {
    var o := CreateComment(c, postId, content, db, newId, now);
    if o.status == Ok {
      var cm := o.db.comments[|db.comments|];
      assert o.db.comments == db.comments + [cm];
      assert forall q :: q in db.comments ==> q.id != newId;
      assert HasUser(o.db, cm.authorId) by {
        assert Actor(db, c).value in o.db.users;
      }
    }
  }

  // ---------------------------------------------------------------- router

  datatype PostsRequest =
    | ReadFeed                                         // GET /posts
    | WritePost(content: Option<Json>)                 // POST /posts
    | LikePost(postId: Id)                             // POST /posts/:id/like
    | CommentOn(postId: Id, content: Option<Json>)     // POST /posts/:id/comment

  /** The generated id and the clock reading a creating request receives from the store. */
  datatype Generated = Generated(id: Id, now: int)

  function Handle(req: PostsRequest, c: Claims, db: Db, gen: Generated): Outcome {
    match req
    case ReadFeed => GetFeed(c, db)
    case WritePost(content) => CreatePost(c, content, db, gen.id, gen.now)
    case LikePost(postId) => ToggleLike(c, postId, db)
    case CommentOn(postId, content) => CreateComment(c, postId, content, db, gen.id, gen.now)
  }

  /**
   Every `/posts` route sits behind the token middleware: no token is a 401
   and a rejected one a 403, each with only its reason phrase as the body,
   whatever the request, with the store untouched; a verified token runs the handler on exactly the decoded claims.
   */
  function PostsRoute(req: PostsRequest, header: Option<string>, verify: Verifier, db: Db, gen: Generated): (o: Outcome)
    ensures Header.Token(header).None? ==> o == Outcome(Unauthorized, StatusText("Unauthorized"), db)
    ensures Header.Token(header).Some? && verify(Header.Token(header).value).None? ==>
              o == Outcome(Forbidden, StatusText("Forbidden"), db)
    ensures Header.Token(header).Some? && verify(Header.Token(header).value).Some? ==>
              o == Handle(req, verify(Header.Token(header).value).value, db, gen)
    ensures o.status != Ok ==> o.db == db
  {
    Guard(Authenticate(header, verify), db, c => Handle(req, c, db, gen))
  }

}

=== FILE: scenario.dfy ===
/**
 A worked request sequence: a user posts "hello", likes the post, sees it in
 the feed as liked with one like, and unlikes it again.
 */
module Scenario {
  import opened Optional
  import opened Store
  import opened Http
  import opened Auth
  import opened Posts

  const Alice := User("u1", "A", "a@x.com", "")
  const AliceClaims := Claims(Some("a@x.com"), None)
  const OnlyAlice := Db([Alice], [], {}, {}, [])

  lemma PostLikeUnlike()
    ensures var created := CreatePost(AliceClaims, Some(JStr("hello")), OnlyAlice, "p1", 1);
            && created.status == Ok
            && created.body.postView.post == Post("p1", "hello", "u1", 1)
            && created.body.postView.author.id == "u1"
            && var liked := ToggleLike(AliceClaims, "p1", created.db);
               && liked.body == Message("Liked")
               && var feed := GetFeed(AliceClaims, liked.db).body.items;
                  && |feed| == 1 && feed[0].post.id == "p1" && feed[0].isLiked && feed[0].likeCount == 1
                  && var unliked := ToggleLike(AliceClaims, "p1", liked.db);
                     && unliked.body == Message("Unliked")
                     && LikeCount(unliked.db, "p1") == 0
  {
    assert Actor(OnlyAlice, AliceClaims) == Some(Alice);
    var created := CreatePost(AliceClaims, Some(JStr("hello")), OnlyAlice, "p1", 1);
    var p := Post("p1", "hello", "u1", 1);
    assert created.db == OnlyAlice.(posts := [p]);
    assert HasPost(created.db, "p1") by {
      assert p in created.db.posts;
    }
    var liked := ToggleLike(AliceClaims, "p1", created.db);
    assert liked.db.likes == {("p1", "u1")};
    assert LikeCount(liked.db, "p1") == 1 by {
      assert (set l | l in liked.db.likes && l.0 == "p1") == {("p1", "u1")};
    }
    var feed := GetFeed(AliceClaims, liked.db).body.items;
    assert multiset(FeedPosts(feed)) == multiset{p};
    assert |feed| == 1;
    assert FeedPosts(feed)[0] in multiset{p};
    FeedMarksActorLikes(AliceClaims, liked.db);
    assert feed[0] in feed;
    var unliked := ToggleLike(AliceClaims, "p1", liked.db);
    assert unliked.db.likes == {};
  }

}

=== FILE: store.dfy ===
/**
 The relational store behind the backend, as plain values. Users and posts are
 kept in insertion order, likes and follows are sets of composite keys, and the
 lookups the handlers make are first-match scans. `Valid` collects the
 integrity the database itself enforces (unique ids and emails, and foreign
 keys from every post, like, follow and comment to the records it names)
 together with the one rule the follow handler keeps: nobody follows themself.
 */
module Store {
  import opened Optional

  type Id = string
  type Email = string

  datatype User = User(id: Id, name: string, email: Email, image: string)

  datatype Post = Post(id: Id, content: string, authorId: Id, createdAt: int)

  datatype Comment = Comment(id: Id, content: string, postId: Id, authorId: Id, createdAt: int)

  /** `likes` holds `(postId, userId)` keys; `follows` holds ordered `(followerId, followingId)` keys. */
  datatype Db = Db(
    users: seq<User>,
    posts: seq<Post>,
    likes: set<(Id, Id)>,
    follows: set<(Id, Id)>,
    comments: seq<Comment>)

  /** `user.findUnique({ where: { email } })` */
  function FindByEmail(users: seq<User>, e: Email): (r: Option<User>)
    ensures r.Some? ==> r.value in users && r.value.email == e
    ensures r.None? ==> forall u :: u in users ==> u.email != e
  {
    if |users| == 0 then None
    else if users[0].email == e then Some(users[0])
    else FindByEmail(users[1..], e)
  }

  /** `user.findUnique({ where: { id } })` */
  function FindById(users: seq<User>, id: Id): (r: Option<User>)
    ensures r.Some? ==> r.value in users && r.value.id == id
    ensures r.None? ==> forall u :: u in users ==> u.id != id
  {
    if |users| == 0 then None
    else if users[0].id == id then Some(users[0])
    else FindById(users[1..], id)
  }

  predicate HasUser(db: Db, id: Id) {
    exists u :: u in db.users && u.id == id
  }

  predicate HasPost(db: Db, id: Id) {
    exists p :: p in db.posts && p.id == id
  }

  predicate HasComment(db: Db, id: Id) {
    exists c :: c in db.comments && c.id == id
  }

  /** The `_count` aggregates the handlers attach, as cardinalities. */
  function LikeCount(db: Db, postId: Id): nat {
    |set l | l in db.likes && l.0 == postId|
  }

  function CommentCount(db: Db, postId: Id): nat {
    |set i | 0 <= i < |db.comments| && db.comments[i].postId == postId|
  }

  function PostCount(db: Db, userId: Id): nat {
    |set i | 0 <= i < |db.posts| && db.posts[i].authorId == userId|
  }

  function FollowerCount(db: Db, userId: Id): nat {
    |set f | f in db.follows && f.1 == userId|
  }

  function FollowingCount(db: Db, userId: Id): nat {
    |set f | f in db.follows && f.0 == userId|
  }

  ghost predicate UniqueUsers(users: seq<User>) {
    forall i, j :: 0 <= i < j < |users| ==> users[i].id != users[j].id && users[i].email != users[j].email
  }

  ghost predicate UniquePosts(posts: seq<Post>) {
    forall i, j :: 0 <= i < j < |posts| ==> posts[i].id != posts[j].id
  }

  ghost predicate UniqueComments(comments: seq<Comment>) {
    forall i, j :: 0 <= i < j < |comments| ==> comments[i].id != comments[j].id
  }

  /** The integrity the database enforces; follow edges are also never reflexive. */
  ghost predicate Valid(db: Db) {
    && UniqueUsers(db.users)
    && UniquePosts(db.posts)
    && UniqueComments(db.comments)
    && (forall p :: p in db.posts ==> HasUser(db, p.authorId))
    && (forall l :: l in db.likes ==> HasPost(db, l.0) && HasUser(db, l.1))
    && (forall f :: f in db.follows ==> HasUser(db, f.0) && HasUser(db, f.1) && f.0 != f.1)
    && (forall c :: c in db.comments ==> HasPost(db, c.postId) && HasUser(db, c.authorId))
  }

  /** With unique emails, the record an email lookup finds is the only one with that email. */
  lemma {:induction false} FindByEmailUnique(users: seq<User>, e: Email, u: User)
    requires UniqueUsers(users)
    requires u in users && u.email == e
    ensures FindByEmail(users, e) == Some(u)
  {
    if users[0] != u {
      assert users[0].email != e by {
        var j :| 0 <= j < |users| && users[j] == u;
        assert j != 0;
      }
      assert UniqueUsers(users[1..]) by {
        forall i, j | 0 <= i < j < |users[1..]|
          ensures users[1..][i].id != users[1..][j].id && users[1..][i].email != users[1..][j].email
        {
          assert users[1..][i] == users[i + 1] && users[1..][j] == users[j + 1];
        }
      }
      FindByEmailUnique(users[1..], e, u);
    }
  }

}

=== FILE: users.dfy ===
/**
 The `/users` routes: the requester's own record, a public profile with its
 five most recent posts, and toggling a follow edge. `/me` and the follow
 toggle run behind the token middleware; the profile lookup does not.
 */
module Users {
  import opened Optional
  import opened Store
  import opened Ordering
  import opened Http
  import opened Auth
  import Header

  // ---------------------------------------------------------------- /me

  /**
   `GET /users/me`: the record whose email is the claims' email, with its
   counts; 404 when there is none. A lookup without an email is refused by the
   store (500).
   */
  function Me(c: Claims, db: Db): (o: Outcome)
    ensures o.db == db
    ensures c.email.None? ==> o == Failed(db)
    ensures c.email.Some? && (forall u :: u in db.users ==> u.email != c.email.value) ==>
              o == Outcome(NotFound, Message("User not found"), db)
    ensures o.status == Ok ==>
              o.body.CurrentUser? && o.body.meView.user in db.users && Some(o.body.meView.user.email) == c.email
    ensures c.email.Some? && (exists u :: u in db.users && u.email == c.email.value) ==> o.status == Ok
  {
    match c.email
    case None => Failed(db)
    case Some(e) =>
      match FindByEmail(db.users, e)
      case None => Outcome(NotFound, Message("User not found"), db)
      case Some(u) =>
        Outcome(Ok, CurrentUser(MeView(u, PostCount(db, u.id), FollowerCount(db, u.id), FollowingCount(db, u.id))), db)
  }

  /** With unique emails, `/me` answers with the one record that has the claims' email. */
  lemma MeIsTheEmailOwner(c: Claims, db: Db, u: User)
    requires UniqueUsers(db.users)
    requires u in db.users && c.email == Some(u.email)
    ensures Me(c, db).status == Ok && Me(c, db).body.meView.user == u
  {
    FindByEmailUnique(db.users, u.email, u);
  }

  // ---------------------------------------------------------------- /:id

  /**
   `GET /users/:id`: no claims are involved. 404 when no record has the id;
   otherwise the record and at most five of its posts, newest first, with no
   post of theirs left out that is newer than one shown.
   */
  function Profile(id: Id, db: Db): (o: Outcome)
    ensures o.db == db
    ensures !HasUser(db, id) ==> o == Outcome(NotFound, Message("User not found"), db)
    ensures HasUser(db, id) ==> o.status == Ok && o.body.UserProfile?
    ensures o.status == Ok ==>
              && o.body.UserProfile?
              && var v := o.body.profileView;
                 && v.user in db.users && v.user.id == id
                 && |v.recent| <= RecentLimit
                 && NewestFirst(v.recent)
                 && (forall p :: p in v.recent ==> p in db.posts && p.authorId == id)
                 && multiset(v.recent) <= multiset(db.posts)
                 && (forall q :: q in db.posts && q.authorId == id && q !in v.recent ==>
                       |v.recent| == RecentLimit && forall i :: 0 <= i < |v.recent| ==> v.recent[i].createdAt >= q.createdAt)
  {
    match FindById(db.users, id)
    case None => Outcome(NotFound, Message("User not found"), db)
    case Some(u) =>
      Outcome(Ok, UserProfile(ProfileView(u, RecentPosts(db.posts, id), FollowerCount(db, id), FollowingCount(db, id))), db)
  }

  // ---------------------------------------------------------------- /:id/follow

  /**
   `POST /users/:id/follow`. The guards run in order: a lookup without an
   email (500), no record for the requester (404), the requester's own id
   (400); then the ordered edge from the requester to the target is removed
   if present and added if absent, the message saying which.
   */
  function ToggleFollow(c: Claims, targetId: Id, db: Db): (o: Outcome)
    ensures c.email.None? ==> o == Failed(db)
    ensures c.email.Some? && Actor(db, c).None? ==> o == Outcome(NotFound, Message("Current user not found"), db)
    ensures Actor(db, c).Some? && Actor(db, c).value.id == targetId ==>
              o == Outcome(BadRequest, Message("Cannot follow yourself"), db)
    ensures o.status != Ok ==> o.db == db
    ensures o.db.users == db.users && o.db.posts == db.posts
    ensures o.db.likes == db.likes && o.db.comments == db.comments
    ensures Actor(db, c).Some? && Actor(db, c).value.id != targetId && (Actor(db, c).value.id, targetId) in db.follows ==>
              o == Outcome(Ok, Message("Unfollowed"), db.(follows := db.follows - {(Actor(db, c).value.id, targetId)}))
    ensures (Actor(db, c).Some? && Actor(db, c).value.id != targetId && (Actor(db, c).value.id, targetId) !in db.follows
              && HasUser(db, targetId)) ==>
              o == Outcome(Ok, Message("Followed"), db.(follows := db.follows + {(Actor(db, c).value.id, targetId)}))
    ensures (Actor(db, c).Some? && Actor(db, c).value.id != targetId && (Actor(db, c).value.id, targetId) !in db.follows
              && !HasUser(db, targetId)) ==> o == Failed(db)
    ensures forall f :: (f in o.db.follows) != (f in db.follows) ==>
              Actor(db, c).Some? && f == (Actor(db, c).value.id, targetId) && f.0 != f.1
  {
    match c.email
    case None => Failed(db)
    case Some(e) =>
      match FindByEmail(db.users, e)
      case None => Outcome(NotFound, Message("Current user not found"), db)
      case Some(follower) =>
        if follower.id == targetId then Outcome(BadRequest, Message("Cannot follow yourself"), db)
        else
          var edge := (follower.id, targetId);
          if edge in db.follows then Outcome(Ok, Message("Unfollowed"), db.(follows := db.follows - {edge}))
          else if !HasUser(db, targetId) then Failed(db)   // the edge's foreign key to the target
          else Outcome(Ok, Message("Followed"), db.(follows := db.follows + {edge}))
  }

  /**
   A requester without a record is answered before any follow edge is looked
   at: the answer is the same whatever edges the store holds.
   */
  lemma MissingActorIgnoresFollows(c: Claims, targetId: Id, db: Db, follows: set<(Id, Id)>)
    requires c.email.Some? && Actor(db, c).None?
    ensures ToggleFollow(c, targetId, db) == Outcome(NotFound, Message("Current user not found"), db)
    ensures ToggleFollow(c, targetId, db.(follows := follows)) ==
              Outcome(NotFound, Message("Current user not found"), db.(follows := follows))
  {
  }

  /** Following oneself is refused whatever edges the store holds, so no self edge ever appears. */
  lemma SelfFollowNeverAddsEdge(c: Claims, db: Db)
    requires Actor(db, c).Some?
    ensures var o := ToggleFollow(c, Actor(db, c).value.id, db);
            o.status == BadRequest && o.db == db
  {
  }

  /** The reverse edge, from the target back to the requester, is never touched. */
  lemma ToggleFollowKeepsReverseEdge(c: Claims, targetId: Id, db: Db)
    requires Actor(db, c).Some?
    ensures var back := (targetId, Actor(db, c).value.id);
            back in ToggleFollow(c, targetId, db).db.follows <==> back in db.follows
  {
  }

  /**
   Two follow toggles in a row restore the follow set, and the two messages
   are one "Followed" and one "Unfollowed".
   */
  lemma ToggleFollowTwice(c: Claims, targetId: Id, db: Db)
    requires Valid(db)
    requires ToggleFollow(c, targetId, db).status == Ok
    ensures var first := ToggleFollow(c, targetId, db);
            var second := ToggleFollow(c, targetId, first.db);
            && second.status == Ok
            && second.db == db
            && {first.body, second.body} == {Message("Followed"), Message("Unfollowed")}
  {
    var u := Actor(db, c).value;
    var edge := (u.id, targetId);
    if edge in db.follows {
      assert HasUser(db, targetId);
      assert db.follows - {edge} + {edge} == db.follows;
    } else {
      assert db.follows + {edge} - {edge} == db.follows;
    }
  }

  /** Toggling a follow keeps every edge between two existing, distinct users. */
  lemma ToggleFollowKeepsValid(c: Claims, targetId: Id, db: Db)
    requires Valid(db)
    ensures Valid(ToggleFollow(c, targetId, db).db)
  {
    var o := ToggleFollow(c, targetId, db);
    if o.db.follows != db.follows && Actor(db, c).Some? {
      assert HasUser(db, Actor(db, c).value.id);
    }
  }

  // ---------------------------------------------------------------- router

  datatype UsersRequest =
    | GetUser(segment: string)     // GET /users/me and GET /users/:id
    | FollowUser(id: Id)           // POST /users/:id/follow

  const MeSegment := "me"

  /** ASCII lower case of one character; every other character is left alone. */
  function LowerChar(c: char): char {
    if 'A' <= c <= 'Z' then (c as int + 32) as char else c
  }

  /**
   The ASCII lower case of a path segment. The router is built without
   `caseSensitive`, so Express compares route paths ignoring case; the only
   characters that matter for the literal `/me` are ASCII letters.
   */
  function Lower(s: string): (r: string)
    ensures |r| == |s|
    ensures forall i :: 0 <= i < |s| ==> r[i] == LowerChar(s[i])
  {
    if s == [] then [] else [LowerChar(s[0])] + Lower(s[1..])
  }

  /** Exactly the four spellings of "me" reach the guarded `/me` route. */
  lemma {:induction false} MeInAnyCase(s: string)
    ensures Lower(s) == MeSegment <==> s in {"me", "mE", "Me", "ME"}
  {
    if Lower(s) == MeSegment {
      assert |s| == 2;
      assert LowerChar(s[0]) == 'm' && LowerChar(s[1]) == 'e';
      assert s[0] in {'m', 'M'} && s[1] in {'e', 'E'};
      assert s == [s[0], s[1]];
    }
    if s in {"me", "mE", "Me", "ME"} {
      assert Lower(s)[0] == 'm' && Lower(s)[1] == 'e';
      assert Lower(s) == [Lower(s)[0], Lower(s)[1]];
    }
  }

  /**
   The `/users` router. `/me` is registered before `/:id` and paths match
   regardless of case, so a GET for "me" in any case is always the guarded
   `/me`; every other GET is the public profile, answered whatever the header
   says.
   */
  function UsersRoute(req: UsersRequest, header: Option<string>, verify: Verifier, db: Db): (o: Outcome)
    ensures req.GetUser? && Lower(req.segment) != MeSegment ==> o == Profile(req.segment, db)
    ensures (req.FollowUser? || Lower(req.segment) == MeSegment) && Header.Token(header).None? ==>
              o == Outcome(Unauthorized, StatusText("Unauthorized"), db)
    ensures ((req.FollowUser? || Lower(req.segment) == MeSegment) && Header.Token(header).Some?
              && verify(Header.Token(header).value).None?) ==> o == Outcome(Forbidden, StatusText("Forbidden"), db)
    ensures req.GetUser? && Lower(req.segment) == MeSegment && Authenticate(header, verify).Proceed? ==>
              o == Me(Authenticate(header, verify).user, db)
    ensures req.FollowUser? && Authenticate(header, verify).Proceed? ==>
              o == ToggleFollow(Authenticate(header, verify).user, req.id, db)
    ensures o.status != Ok ==> o.db == db
  {
    match req
    case GetUser(segment) =>
      if Lower(segment) == MeSegment then Guard(Authenticate(header, verify), db, c => Me(c, db))
      else Profile(segment, db)
    case FollowUser(id) => Guard(Authenticate(header, verify), db, c => ToggleFollow(c, id, db))
  }

  /** GET /users/ME without a header is refused by the middleware, not answered as a profile. */
  lemma UpperMeIsUnauthorized(v: Verifier, db: Db)
    ensures UsersRoute(GetUser("ME"), None, v, db) == Outcome(Unauthorized, StatusText("Unauthorized"), db)
  {
  }

  /** The public profile does not depend on the header or the verifier at all. */
  lemma ProfileNeedsNoToken(id: Id, db: Db, h1: Option<string>, v1: Verifier, h2: Option<string>, v2: Verifier)
    requires Lower(id) != MeSegment
    ensures UsersRoute(GetUser(id), h1, v1, db) == UsersRoute(GetUser(id), h2, v2, db)
    ensures HasUser(db, id) ==> UsersRoute(GetUser(id), None, v1, db).status == Ok
  {
  }

}
